=== FILE: README.md ===
# Clinic admin front-end: the list-state core, in Dafny

The clinic dashboard has three resource pages: patients, doctors and appointments. Each page keeps an
in-memory list of records fetched from a REST service. It merges the results of create, update and
delete calls into that list and shows the list ten rows at a time. Long free text is truncated in the
table cells. This project models that core as pure functions over immutable sequences and proves what
the pages promise about it.

The same core appears in all three pages:

- **Order.** Every list is sorted by descending id. The sort is JavaScript's stable `Array.sort`, so
  records with equal ids keep their input order (`IdOrder`).
- **Merges.** After an update, every entry with the returned id is dropped, the returned record is
  prepended and the list is re-sorted. After a create, the returned record is prepended and the list is
  re-sorted. After a delete, the id is filtered out and the list is not re-sorted (`ListOps`).
- **Paging.** Ten records per page and `max(1, ceil(n/10))` pages. The page slice uses JavaScript's
  `slice` semantics (`Slicing`). An effect pulls the current page back to the last page when the list
  shrinks (`Paging`). The Previous/Next control clamps its moves to `[1, totalPages]` (`Pagination`).
- **Text cells.** A cell keeps the first 60 characters and adds an ellipsis only when the text was
  cut. A missing or empty text shows a placeholder (`Display`). The patients page uses `...` and `N/A`.
  The doctors and appointments pages use `…` and `—`.
- **Page state** (`ListPage`). The list, loading flag, current page, error banner, create/edit form and
  delete confirmation. The transitions are shared by all pages.
- **Per-page rules.**
  - The doctors page requires name and specialty (`DoctorsPage`).
  - The appointments page requires non-zero patient and doctor ids and a date-time. It also has
    patient/doctor filters, and its edit form cuts the date-time to the minute (`AppointmentsPage`).
  - The patients page keeps a selected patient that is always one of the listed patients. An update
    refreshes it, a create selects the new patient and deleting the selected patient moves it to the first remaining one.
    The page also builds an id-indexed doctor lookup for the selected patient's appointment panel
    (`PatientsPage`).

Records are `Record<D>(id, data)`. For doctors and appointments the id-less payload has the same shape
as `data`. For patients the payload makes the name optional (`Types`). A service call is not performed:
its outcome (`Response<T> = Ok(value) | Failed(message)`) is a parameter of the state update that
follows it.

The patients page's `loadInitialData` (src/pages/Patients.tsx:108-112) keeps the previous selection
by id when that patient is still listed. It is called only from the mount effect
(src/pages/Patients.tsx:136-139), when the selection is still null, so on the page it always selects the
first patient. `PatientsPage.Reselect` models the rule as written, with the previous selection as a
parameter; the preservation branch is modelled although the page never reaches it.

## Model

| member | source | states |
|---|---|---|
| IdOrder.SortById | src/pages/Patients.tsx:86-87 | the sorted list is a permutation of the input (same multiset, same length) whose ids never increase |
| IdOrder.SortStable | src/pages/Doctors.tsx:47-48 | the sort is stable: for every id, the records with that id appear in the output in their input order |
| IdOrder.SortUnique | src/pages/Appointments.tsx:55-56 | any descending rearrangement that keeps each id group in input order is the sort's output, so the sort is exactly the stable descending sort |
| IdOrder.SortSortedIsIdentity | src/pages/Appointments.tsx:55-56 | sorting a list already in descending id order returns it unchanged |
| IdOrder.SortedSameGroupsEqual | src/pages/Doctors.tsx:47-48 | two descending lists with the same id groups are equal |
| ListOps.MergeUpdated | src/pages/Patients.tsx:199 | after an update the list is sorted, has exactly one entry for the returned id (the returned record), keeps every other id group unchanged and in order, and its multiset is the old one minus that id plus the returned record |
| ListOps.MergeCreated | src/pages/Patients.tsx:205 | after a create the list is sorted, one longer, its multiset gains exactly the created record, the created record heads its id group, and every other group is unchanged |
| ListOps.CreatedOnTop | src/pages/Doctors.tsx:120-123 | a created record whose id exceeds every listed id ends up first, followed by the unchanged previous list |
| ListOps.RemoveId | src/pages/Appointments.tsx:162 | a delete removes every record with the target id and no other record (multiplicities), keeps the rest in order (a subsequence), and keeps a descending list descending |
| ListOps.RemoveKeepsOrder | src/pages/Doctors.tsx:140 | deleting from a descending list needs no re-sort: sorting the result changes nothing |
| ListOps.SubsequenceSorted | src/pages/Patients.tsx:225-226 | deleting elements from a descending list leaves it descending |
| Paging.TotalPages | src/pages/Patients.tsx:239 | the page count is the least number ≥ 1 of ten-record pages that holds every record |
| Paging.ClampPage | src/pages/Patients.tsx:141-146 | the clamp leaves the page unchanged exactly when it is ≤ the page count, otherwise sets it to the page count; it never lowers a page below 1 |
| Paging.ClampInRange | src/pages/Doctors.tsx:67-72 | after the clamp a page that started ≥ 1 lies in [1, page count] |
| Paging.ClampIdempotent | src/pages/Appointments.tsx:75-80 | running the clamp effect a second time changes nothing |
| Paging.PageSlice | src/pages/Patients.tsx:240-243 | a page shows at most ten records, and row i of page p is record (p-1)*10+i of the list |
| Paging.PagesCoverList | src/pages/Patients.tsx:239-243 | pages 1..page count, concatenated in order, give back the whole list |
| Paging.RecordPage | src/pages/Appointments.tsx:183-187 | the record at index i is shown on page i/10+1, at row i%10, and that page is a valid one |
| Paging.ValidPageNotEmpty | src/pages/Doctors.tsx:147-151 | a valid page of a non-empty list is never empty |
| Slicing.Slice | src/pages/Patients.tsx:242 | JavaScript `slice`: with non-negative arguments, the result is the existing elements from start up to end, element by element |
| Slicing.PrefixSlice | src/pages/Appointments.tsx:93 | `slice(0, n)` is the whole text when it is short, otherwise its first n elements, and slicing twice to n equals slicing once |
| Pagination.GoToPrevious | src/components/Pagination.tsx:17 | Previous moves one page back, and on page 1 (or below) it lands on page 1 |
| Pagination.PreviousDisabled | src/components/Pagination.tsx:22 | Previous is disabled exactly when pressing it would leave the page unchanged |
| Pagination.NextDisabled | src/components/Pagination.tsx:31 | Next is disabled exactly when pressing it would leave the page unchanged |
| Pagination.GoToNext | src/components/Pagination.tsx:18 | Next moves one page forward, and on the last page (or beyond) it lands on the last page |
| Pagination.MovesStayInRange | src/components/Pagination.tsx:17-18 | from a page in [1, totalPages], both moves stay in [1, totalPages] |
| Pagination.PreviousDisabledIffNoOp | src/components/Pagination.tsx:17-24 | Previous is disabled exactly when pressing it would not change the page |
| Pagination.NextDisabledIffNoOp | src/components/Pagination.tsx:18-33 | Next is disabled exactly when pressing it would not change the page |
| Display.Truncate | src/pages/Doctors.tsx:41 | a text of at most 60 characters is shown whole; a longer one as its first 60 characters followed by the ellipsis |
| Display.Cell | src/pages/Appointments.tsx:49 | an absent or empty text shows the placeholder; any other text is shown truncated |
| Display.TruncateShape | src/pages/Patients.tsx:54 | the shown text is at most 60 characters plus the ellipsis, is that long exactly when the text was longer than 60, and starts with what fits of the text |
| Decimal.ParseInt | src/pages/Appointments.tsx:170-171 | `Number` reads a text of decimal digits as its decimal value, leading zeros included, and a '-' followed by digits as the negated value; any other text gives no number |
| Decimal.LeadingZeroIgnored | src/pages/Appointments.tsx:170-171 | a leading zero does not change what `Number` reads from a digit text, so "007" filters like "7" |
| Decimal.LeadingZeroValue | src/pages/Appointments.tsx:170-171 | a leading zero does not change the decimal value of a digit text |
| Types.ErrorText | src/pages/Doctors.tsx:57 | a failed call shows the server's message when it is a non-empty text, and the operation's fixed default otherwise |
| Decimal.IntString | src/pages/Patients.tsx:72 | an id is printed as decimal digits without leading zeros, with a '-' in front when it is negative |
| Decimal.ParseIntString | src/pages/Appointments.tsx:170-171 | `Number` reads back the decimal text of any integer as that integer |
| Decimal.NatStringValue | src/pages/Patients.tsx:72 | the digits printed for a natural number have that number as their value |
| ListPage.Initial | src/pages/Doctors.tsx:20-30 | a page mounts loading, with an empty list on page 1, no error, the form closed and empty, and no edit or delete target; this satisfies the page invariant |
| ListPage.Settle | src/pages/Doctors.tsx:67-72 | the clamp effect changes only the current page, leaves a valid page alone, and moves an overshooting page to the last page |
| ListPage.Visible | src/pages/Doctors.tsx:148-151 | the visible rows are at most ten records: row i of page p is record (p-1)*10+i, and the page holds every record from there up to the tenth |
| ListPage.VisibleNotEmpty | src/pages/Appointments.tsx:183-187 | between events, a non-empty list never shows an empty page |
| ListPage.Loaded | src/pages/Doctors.tsx:53-54 | a successful fetch replaces the list with the response, stably sorted by descending id |
| ListPage.SaveSucceeded | src/pages/Doctors.tsx:115-128 | an accepted save merges the returned record (one entry for its id after an update; one more record after a create), closes and empties the form, goes to page 1 and clears the error |
| ListPage.SaveFailed | src/pages/Doctors.tsx:129-130 | a refused save shows the server's message or the default and changes nothing else |
| ListPage.ConfirmDelete | src/pages/Doctors.tsx:136-145 | with no target nothing happens; otherwise the dialog closes, and success removes the target id from the list while failure shows the message over the unchanged list; the form, edit mode, loading flag and page are untouched |
| ListPage.LoadedValid | src/pages/Appointments.tsx:62 | a fetch followed by the clamp effect leaves a sorted list on a valid page |
| ListPage.SaveSucceededValid | src/pages/Appointments.tsx:146-150 | an accepted save leaves a sorted list on page 1, which the clamp effect does not move |
| ListPage.ConfirmDeleteValid | src/pages/Appointments.tsx:158-167 | a delete followed by the clamp effect keeps the list sorted and the page valid |
| DoctorsPage.Load | src/pages/Doctors.tsx:50-61 | a successful fetch gives the response stably sorted and clears the error; a failure shows the message over the old list; page, form, edit mode and delete target are untouched |
| DoctorsPage.OpenEdit | src/pages/Doctors.tsx:80-88 | the form copies name, specialty and bio; id plus form gives back the record, so the form carries nothing else; only the form, edit mode and the open flag change |
| DoctorsPage.FormComplete | src/pages/Doctors.tsx:109 | the form is refused exactly when the name or the specialty is empty, so the empty form is always refused |
| DoctorsPage.Submit | src/pages/Doctors.tsx:105-134 | an empty name or specialty sets "Name and specialty are required" and changes nothing else; otherwise success is an accepted save, and failure only shows the message, keeping the open form, its contents and the edit mode |
| DoctorsPage.IncompleteFormSendsNothing | src/pages/Doctors.tsx:109-113 | a refused form ends in the same state whatever the server would have answered, with the list untouched |
| DoctorsPage.UpdateReplaces | src/pages/Doctors.tsx:116-119 | an accepted update leaves one row for the returned id, the returned record, other id groups unchanged, and a sorted list |
| DoctorsPage.CreateAdds | src/pages/Doctors.tsx:120-123 | an accepted create adds exactly the returned record to a sorted list |
| DoctorsPage.Delete | src/pages/Doctors.tsx:136-145 | a confirmed delete removes exactly the records with the target id, keeps the rest in order, and keeps a sorted list sorted; with no target nothing happens, and a failed delete only closes the dialog and shows the message or "Failed to delete doctor" |
| DoctorsPage.BioCell | src/pages/Doctors.tsx:40-41 | the bio cell is the bio when it is at most 60 characters, its first 60 characters and '…' when longer, and '—' when there is no bio |
| AppointmentsPage.FilterQuery | src/pages/Appointments.tsx:170-172 | the fetch query has a patient (doctor) id exactly when that box is non-empty, and it is the number read from the box |
| AppointmentsPage.FilterParam | src/pages/Appointments.tsx:170-171 | an empty filter box means no filter; a non-empty one is the number `Number` reads from it when it reads one, and the raw text otherwise |
| AppointmentsPage.FilterReadsPrintedId | src/pages/Appointments.tsx:170-171 | a box holding an id's decimal text filters on exactly that id |
| AppointmentsPage.EditDateTime | src/pages/Appointments.tsx:93 | the edited date-time is at most 16 characters: the stored value when it is short, otherwise its first 16 characters; cutting again changes nothing |
| AppointmentsPage.OpenEdit | src/pages/Appointments.tsx:88-97 | the form copies the appointment's fields with the date-time cut to the minute; for a short date-time, id plus form gives back the record; only the form, edit mode and the open flag change |
| AppointmentsPage.FormComplete | src/pages/Appointments.tsx:123 | the form is refused exactly when a patient or doctor id is 0 or the date-time is empty, so the empty form is always refused |
| AppointmentsPage.Submit | src/pages/Appointments.tsx:119-156 | a zero patient id, zero doctor id or empty date-time sets "Patient ID, Doctor ID, and Date/Time are required" and changes nothing else; otherwise success is an accepted save, and failure only shows the message, keeping the open form, its contents and the edit mode |
| AppointmentsPage.IncompleteFormSendsNothing | src/pages/Appointments.tsx:123-127 | a refused form ends in the same state whatever the server would have answered, with the list untouched |
| AppointmentsPage.SaveResetsForm | src/pages/Appointments.tsx:136-150 | an accepted save closes and empties the form, sets page 1, clears the error, keeps the list sorted, and leaves one row for the returned id (after an update, or a create of a new id) |
| AppointmentsPage.Delete | src/pages/Appointments.tsx:158-167 | a confirmed delete removes exactly the records with the target id and keeps the rest in order, so sortedness is preserved; with no target nothing happens, and a failed delete only closes the dialog and shows the message or "Failed to delete appointment", keeping list and filter boxes |
| AppointmentsPage.ApplyFilters | src/pages/Appointments.tsx:169-174 | "Apply" fetches with each filter present exactly when its box is non-empty, carrying the number read from the box, and changes only the loading flag and the page, which becomes 1 |
| AppointmentsPage.ClearFilters | src/pages/Appointments.tsx:176-181 | "Clear" empties both boxes, fetches with no filter, and changes nothing else but the loading flag and the page, which becomes 1 |
| AppointmentsPage.ClearIsApplyingNothing | src/pages/Appointments.tsx:169-181 | clearing is the same as applying two empty filters |
| AppointmentsPage.Load | src/pages/Appointments.tsx:58-69 | a successful fetch gives the response stably sorted and clears the error; a failure shows the message over the old list; the filter boxes, page and form are untouched |
| AppointmentsPage.ReasonCell | src/pages/Appointments.tsx:45-49 | the reason cell is the reason when it is at most 60 characters, its first 60 characters and '…' when longer, and '—' when absent or empty |
| PatientsPage.MapDoctorsById | src/pages/Patients.tsx:89-95 | the lookup has an entry for exactly the ids in the list, and each entry is the last listed doctor with that id |
| PatientsPage.FindById | src/pages/Patients.tsx:110 | `find` by id returns the first record with that id, or nothing when no record has it |
| PatientsPage.Reselect | src/pages/Patients.tsx:108-115 | after a reload the selection is the first record with the previously selected id if one exists, else the first record, else none |
| PatientsPage.LoadInitialData | src/pages/Patients.tsx:97-121 | a successful load gives the patients stably sorted, the doctor lookup and the reselection, and clears the error; a failure changes only the loading flag and the error; neither touches the page, the form or the appointment panel |
| PatientsPage.SelectionChanged | src/pages/Patients.tsx:148-154 | when the selected id changes the panel fetches that patient's appointments if the id is truthy, clearing the panel's error at once, and is emptied otherwise |
| PatientsPage.AppointmentsQuery | src/pages/Patients.tsx:148-154 | the panel fetches the selected patient's appointments exactly when a patient with a non-zero id is selected |
| PatientsPage.AppointmentsLoaded | src/pages/Patients.tsx:123-134 | the panel's appointments are the response stably sorted by descending id, or the old ones with the error shown; nothing outside the panel changes |
| PatientsPage.OpenEdit | src/pages/Patients.tsx:162-171 | the form copies name, age, gender and medical history from the record, and no id; only the form, edit mode and the open flag change |
| PatientsPage.Submit | src/pages/Patients.tsx:193-219 | an accepted update replaces the selection only when it is the updated patient; an accepted create selects the created patient and empties the panel; a failure only shows the message, keeping list, form contents, edit mode, selection and panel; the doctor lookup and the panel's error are never changed |
| PatientsPage.Delete | src/pages/Patients.tsx:221-237 | a confirmed delete removes the target id; if the target was selected the selection becomes the first remaining patient, or none with an empty panel; otherwise the selection is kept; the doctor lookup and the panel's error are never changed |
| PatientsPage.LoadKeepsSelectionListed | src/pages/Patients.tsx:108-115 | after a load the selected patient, if any, is in the list |
| PatientsPage.SubmitKeepsSelectionListed | src/pages/Patients.tsx:197-207 | an accepted or refused save keeps the selected patient, if any, in the list |
| PatientsPage.UpdatedSelectionListed | src/pages/Patients.tsx:199-202 | after an update merge the (possibly replaced) selection is still a listed patient |
| PatientsPage.CreatedListed | src/pages/Patients.tsx:205-206 | the patient selected after a create is in the merged list |
| PatientsPage.DeleteKeepsSelectionListed | src/pages/Patients.tsx:225-232 | after a delete the selected patient, if any, is in the list |
| PatientsPage.MedicalHistoryCell | src/pages/Patients.tsx:50-55 | the cell is the history when it is at most 60 characters, its first 60 characters and '...' when longer, and 'N/A' when absent or empty |
| PatientsPage.AppointmentReasonCell | src/pages/Patients.tsx:74-80 | the panel's reason cell follows the same rule with '...' and 'N/A' |
| PatientsPage.DoctorLabel | src/pages/Patients.tsx:71-72 | the panel's Doctor cell is the looked-up doctor's name when it is non-empty, else `Doctor #<id>` |
| PatientsPage.DoctorLabelFromList | src/pages/Patients.tsx:69-72 | the doctor cell shows the name of the last listed doctor with that id when it is non-empty, and "Doctor #" plus the id when no doctor has it |

## Left out

- src/services/api.ts is not part of this model. It covers the HTTP client, timeout, bearer token and
  the 401 redirect, which are I/O and global side effects.
- The three services (src/services/*Service.ts) are pass-through HTTP calls. Their outcomes are the
  `Response` parameters of the state updates.
- Overlapping fetches and the order in which responses arrive are not modelled; that is event-loop
  concurrency. `ConfirmDialog` closes right after starting the delete without awaiting it.
  `ListPage.ConfirmDelete` models only the state after both the close and the response.
- Rendering and routing are not modelled: Table, Layout, Navigation, ResourceHeader, Dashboard, App,
  the view modals (`openView`, `selectPatient`, `isViewOpen`), the age and gender fallbacks and the
  `submitting` button flag and the patients page's `appointmentsLoading` flag (both only drive a label
  or a disabled button).
- ListPage.OpenCreate, ListPage.CloseForm and ListPage.RequestDelete are modelled as plain field
  assignments (`openCreate`, the form's cancel, `setDeleteX`). No contract is stated for them, because
  they make no promise beyond the assignment.
- `toLocaleString` date formatting and the `Number(value)` conversions in the form change handlers are
  not modelled. They are locale- and floating-point-dependent library behaviour. Form values are taken
  as already converted.
- JavaScript numbers are doubles. Ids are unbounded integers here, so the comparator
  `(b.id ?? 0) - (a.id ?? 0)` is exact; this matches the source for ids below 2^53. The `?? 0` branch
  cannot fire, because the types make `id` required.
- Strings are sequences of Unicode characters. JavaScript's `length` and `slice` count UTF-16 code
  units, so texts with characters outside the Basic Multilingual Plane are cut at a different place.
- AppointmentsPage.FilterParam: `Number` is modelled only on texts that are an optional '-' followed by
  decimal digits. Every other non-empty text (signs, decimals, exponents, surrounding spaces) becomes
  `Unparsed(text)`, not the value `Number` would give. This is weaker than the source.
- HTML constraint validation is not modelled. The forms mark inputs `required`, and the appointment ids
  `min={1}` (src/pages/Doctors.tsx:194, src/pages/Appointments.tsx:261-262), so a browser refuses such a
  form before `handleSubmit` runs. The model starts at `handleSubmit`, whose own checks are what
  `FormComplete` states; ids below 1 pass them.
- Decimal.ParseInt: `Number` is modelled only on an optional '-' followed by decimal digits, for the
  reason given on the AppointmentsPage.FilterParam line.
- vite.config.ts is not part of this model: it is build configuration.

=== FILE: appointments_page.dfy ===
/**
 * The appointments page: list with patient/doctor filters, create/edit form
 * with its required fields, delete, reason cell.
 */
module AppointmentsPage {
  import opened Wrappers
  import opened Types
  import opened IdOrder
  import opened ListOps
  import opened Slicing
  import opened Decimal
  import opened Display
  import opened ListPage

  /** The list state plus the text of the two filter boxes. */
  datatype State = State(list: PageState<AppointmentData, AppointmentData>, patientFilter: string, doctorFilter: string)

  const EmptyForm := AppointmentData(0, 0, "", Some(""))
  const MissingFields := "Patient ID, Doctor ID, and Date/Time are required"
  const SaveError := "Failed to save appointment"
  const DeleteError := "Failed to delete appointment"
  const LoadError := "Failed to load appointments"

  /** Length of a date-time edited to the minute: "YYYY-MM-DDTHH:MM". */
  const MinuteLength: nat := 16

  /** One query parameter of the list fetch.  `Unparsed` stands for a box whose
      text `Number` would not read as an integer in decimal digits. */
  datatype QueryId = Unset | Id(value: int) | Unparsed(text: string)

  datatype Query = Query(patientId: QueryId, doctorId: QueryId)

  /** `text ? Number(text) : undefined`. */
  function FilterParam(text: string): (q: QueryId)
    ensures q.Unset? <==> text == []
    ensures q.Id? ==> text != [] && ParseInt(text) == Some(q.value)
    ensures text != [] && ParseInt(text).Some? ==> q == Id(ParseInt(text).value)
    ensures text != [] && ParseInt(text).None? ==> q == Unparsed(text)
  {
    if text == [] then Unset
    else
      match ParseInt(text)
      case Some(n) => Id(n)
      case None => Unparsed(text)
  }

  /** A box holding an id as it is printed filters on exactly that id. */
  lemma FilterReadsPrintedId(n: int)
    ensures FilterParam(IntString(n)) == Id(n)
  {
    ParseIntString(n);
  }

  /** The check `handleSubmit` makes before any request: `!formData.patientId`
      holds for the id 0 and `!formData.dateTime` for the empty text, and each refuses the form. */
  predicate FormComplete(form: AppointmentData): (b: bool)
    ensures form.patientId == 0 || form.doctorId == 0 || form.dateTime == [] ==> !b
    ensures form.patientId != 0 && form.doctorId != 0 && form.dateTime != [] ==> b
    ensures b ==> form != EmptyForm
  {
    form.patientId != 0 && form.doctorId != 0 && form.dateTime != []
  }

  /** The date-time as the form edits it: `dateTime.slice(0, 16)`. */
  function EditDateTime(dateTime: string): (r: string)
    ensures |r| <= MinuteLength
    ensures |dateTime| <= MinuteLength ==> r == dateTime
    ensures |dateTime| > MinuteLength ==> r == dateTime[..MinuteLength]
    ensures EditDateTime(r) == r
  {
    PrefixSlice(dateTime, MinuteLength);
    Slice(dateTime, 0, MinuteLength)
  }

  /** "Edit" on a row: the form carries the row's fields with the date-time cut to the minute. */
  function OpenEdit(s: State, appointment: Appointment): (r: State)
    ensures r.list.formOpen && r.list.editing == Some(appointment)
    ensures r.list.form == appointment.data.(dateTime := EditDateTime(appointment.data.dateTime))
    ensures |appointment.data.dateTime| <= MinuteLength ==> Record(appointment.id, r.list.form) == appointment
    ensures r.list.items == s.list.items && r.list.currentPage == s.list.currentPage
    ensures r.patientFilter == s.patientFilter && r.doctorFilter == s.doctorFilter
    ensures r == s.(list := s.list.(editing := Some(appointment), form := r.list.form, formOpen := true))
  {
    var form := appointment.data.(dateTime := EditDateTime(appointment.data.dateTime));
    s.(list := s.list.(editing := Some(appointment), form := form, formOpen := true))
  }

  /** Form submission.  An incomplete form is refused without a request; otherwise
      the payload (the form's four fields) is sent and the outcome decides. */
  function Submit(s: State, response: Response<Appointment>): (r: State)
    ensures !FormComplete(s.list.form) ==> r == s.(list := s.list.(error := MissingFields))
    ensures FormComplete(s.list.form) && response.Ok? ==>
              r.list == SaveSucceeded(s.list, response.value, EmptyForm)
    ensures FormComplete(s.list.form) && response.Failed? ==>
              r.list.items == s.list.items && r.list.formOpen == s.list.formOpen &&
              r.list.error == ErrorText(response.message, SaveError)
    // a failed save keeps edit mode and the form's contents, so a retry is the same request
    ensures FormComplete(s.list.form) && response.Failed? ==>
              r == s.(list := s.list.(error := ErrorText(response.message, SaveError)))
    ensures r.patientFilter == s.patientFilter && r.doctorFilter == s.doctorFilter
  {
    if !FormComplete(s.list.form) then s.(list := s.list.(error := MissingFields))
    else
      match response
      case Ok(saved) => s.(list := SaveSucceeded(s.list, saved, EmptyForm))
      case Failed(m) => s.(list := SaveFailed(s.list, m, SaveError))
  }

  /** A refused form is never sent: whatever the server would have answered,
      the page ends in the same state, with the list untouched. */
  lemma IncompleteFormSendsNothing(s: State, a: Response<Appointment>, b: Response<Appointment>)
    requires !FormComplete(s.list.form)
    ensures Submit(s, a) == Submit(s, b)
    ensures Submit(s, a).list.items == s.list.items
    ensures Submit(s, a).list.error == MissingFields
  {
  }

  /** After an accepted save the form is closed and emptied, the page is 1, the
      error is cleared, and the list holds exactly one row for the returned id
      when the save was an update, or when no row had that id before. */
  lemma SaveResetsForm(s: State, saved: Appointment)
    requires FormComplete(s.list.form)
    ensures var r := Submit(s, Ok(saved)).list;
            && !r.formOpen && r.editing.None? && r.form == EmptyForm
            && r.currentPage == 1 && r.error == ""
            && SortedDesc(r.items)
            && (s.list.editing.Some? || WithId(s.list.items, saved.id) == [] ==>
                  WithId(r.items, saved.id) == [saved])
  {
  }

  /** A confirmed delete removes exactly the rows with the target's id, keeps the
      others in their order, and so keeps the list sorted without a re-sort. */
  function Delete(s: State, response: Response<()>): (r: State)
    ensures s.list.deleting.Some? && response.Ok? ==>
              forall a :: multiset(r.list.items)[a] ==
                          (if a.id == s.list.deleting.value.id then 0 else multiset(s.list.items)[a])
    ensures s.list.deleting.Some? && response.Ok? ==> Subsequence(r.list.items, s.list.items)
    ensures SortedDesc(s.list.items) ==> SortedDesc(r.list.items)
    ensures r == s.(list := ConfirmDelete(s.list, response, DeleteError))
    // without a target nothing happens; a failed delete only closes the dialog and shows the message
    ensures s.list.deleting.None? ==> r == s
    ensures s.list.deleting.Some? && response.Failed? ==>
              r == s.(list := s.list.(deleting := None, error := ErrorText(response.message, DeleteError)))
  {
    s.(list := ConfirmDelete(s.list, response, DeleteError))
  }

  /** The query a list fetch is issued with: each id is present exactly when its
      box is non-empty, and then it is what `Number` reads from the box. */
  function FilterQuery(s: State): (q: Query)
    ensures q.patientId.Unset? <==> s.patientFilter == []
    ensures q.doctorId.Unset? <==> s.doctorFilter == []
    ensures s.patientFilter != [] && ParseInt(s.patientFilter).Some? ==>
              q.patientId == Id(ParseInt(s.patientFilter).value)
    ensures s.doctorFilter != [] && ParseInt(s.doctorFilter).Some? ==>
              q.doctorId == Id(ParseInt(s.doctorFilter).value)
  {
    Query(FilterParam(s.patientFilter), FilterParam(s.doctorFilter))
  }

  /** "Apply": refetch with the filters and go back to page 1. */
  function ApplyFilters(s: State): (r: (State, Query))
    ensures r.0.list.currentPage == 1 && r.0.list.loading
    ensures r.1.patientId.Unset? <==> s.patientFilter == []
    ensures r.1.doctorId.Unset? <==> s.doctorFilter == []
    ensures r.0.list.items == s.list.items
    ensures r.1 == Query(FilterParam(s.patientFilter), FilterParam(s.doctorFilter))
    ensures r.0.patientFilter == s.patientFilter && r.0.doctorFilter == s.doctorFilter
    // nothing but the loading flag and the page changes before the response
    ensures r.0 == s.(list := s.list.(loading := true, currentPage := 1))
  {
    (s.(list := s.list.(loading := true, currentPage := 1)), FilterQuery(s))
  }

  /** "Clear": empty both boxes, refetch without filters, go back to page 1. */
  function ClearFilters(s: State): (r: (State, Query))
    ensures r.0.patientFilter == [] && r.0.doctorFilter == []
    ensures r.0.list.currentPage == 1 && r.0.list.loading
    ensures r.1 == Query(Unset, Unset)
    ensures r.0 == s.(patientFilter := [], doctorFilter := [], list := s.list.(loading := true, currentPage := 1))
  {
    var cleared := s.(patientFilter := [], doctorFilter := []);
    (cleared.(list := cleared.list.(loading := true, currentPage := 1)), Query(Unset, Unset))
  }

  /** Clearing is applying empty filters. */
  lemma ClearIsApplyingNothing(s: State)
    ensures ClearFilters(s) == ApplyFilters(s.(patientFilter := [], doctorFilter := []))
  {
  }

  /** The outcome of a list fetch: the response sorted and the error cleared, or
      the message shown over the list that was there. */
  function Load(s: State, response: Response<seq<Appointment>>): (r: State)
    ensures !r.list.loading
    ensures response.Ok? ==> SortedDesc(r.list.items) && SameGroups(response.value, r.list.items)
    ensures response.Ok? ==> multiset(r.list.items) == multiset(response.value) && r.list.error == ""
    ensures response.Failed? ==>
              r.list.items == s.list.items && r.list.error == ErrorText(response.message, LoadError)
    // only the list, the loading flag and the error change; the filter boxes are kept
    ensures r == s.(list := s.list.(items := r.list.items, loading := false, error := r.list.error))
  {
    match response
    case Ok(data) => s.(list := Loaded(s.list, data).(error := ""))
    case Failed(m) => s.(list := s.list.(error := ErrorText(m, LoadError), loading := false))
  }

  /** The Reason cell: sixty characters, '…' when cut, '—' when there is no reason. */
  function ReasonCell(appointment: Appointment): (r: string)
    ensures appointment.data.reason.None? || appointment.data.reason.value == [] ==> r == "\U{2014}"
    ensures appointment.data.reason.Some? && |appointment.data.reason.value| > CellWidth ==>
              r == appointment.data.reason.value[..CellWidth] + "\U{2026}"
    ensures appointment.data.reason.Some? && 0 < |appointment.data.reason.value| <= CellWidth ==>
              r == appointment.data.reason.value
  {
    Cell(appointment.data.reason, "\U{2026}", "\U{2014}")
  }
}

=== FILE: decimal.dfy ===
/**
 * Decimal text of integers: how a template literal prints a record id
 * (`Doctor #${id}`) and how `Number(text)` reads a filter box holding an
 * integer written in decimal digits, optionally preceded by '-'.
 */
module Decimal {
  import opened Wrappers

  predicate IsDigit(c: char) {
    '0' <= c <= '9'
  }

  /** A non-empty run of decimal digits. */
  predicate IsDigits(s: string) {
    |s| > 0 && forall i :: 0 <= i < |s| ==> IsDigit(s[i])
  }

  function DigitChar(d: nat): (c: char)
    requires d < 10
    ensures IsDigit(c)
  {
    (48 + d) as char
  }

  function DigitValue(c: char): (d: nat)
    requires IsDigit(c)
    ensures d < 10
  {
    c as int - 48
  }

  /** The digits of a natural number, most significant first, no leading zeros. */
  function NatString(n: nat): (s: string)
    ensures IsDigits(s)
    ensures |s| > 1 ==> s[0] != '0'
  {
    if n < 10 then [DigitChar(n)] else NatString(n / 10) + [DigitChar(n % 10)]
  }

  /** How JavaScript prints an integer-valued number. */
  function IntString(n: int): (r: string)
    ensures n >= 0 ==> IsDigits(r) && (|r| > 1 ==> r[0] != '0')
    ensures n < 0 ==> |r| > 1 && r[0] == '-' && IsDigits(r[1..]) && (|r| > 2 ==> r[1] != '0')
  {
    if n < 0 then "-" + NatString(-n) else NatString(n)
  }

  /** The value of a run of digits. */
  function DigitsValue(s: string): nat
    requires forall i :: 0 <= i < |s| ==> IsDigit(s[i])
  {
    if |s| == 0 then 0 else DigitsValue(s[..|s| - 1]) * 10 + DigitValue(s[|s| - 1])
  }

  /** `Number(text)` on the texts it reads as integers; None for every other text. */
  function ParseInt(s: string): (r: Option<int>)
    ensures IsDigits(s) ==> r.Some? && r.value >= 0
    ensures r.Some? && r.value < 0 ==> |s| > 1 && s[0] == '-'
    ensures r.None? ==> !IsDigits(s)
    ensures r.None? <==> !IsDigits(s) && !(|s| > 1 && s[0] == '-' && IsDigits(s[1..]))
    // the value read: leading zeros and all, the digits' decimal value, negated after a '-'
    ensures IsDigits(s) ==> r == Some(DigitsValue(s))
    ensures |s| > 1 && s[0] == '-' && IsDigits(s[1..]) ==> r == Some(-(DigitsValue(s[1..]) as int))
  {
    if IsDigits(s) then Some(DigitsValue(s))
    else if |s| > 1 && s[0] == '-' && IsDigits(s[1..]) then Some(-(DigitsValue(s[1..]) as int))
    else None
  }

  lemma {:induction false} NatStringValue(n: nat)
    ensures DigitsValue(NatString(n)) == n
    decreases n
  {
    if n >= 10 {
      NatStringValue(n / 10);
      var s := NatString(n);
      assert s[..|s| - 1] == NatString(n / 10);
    }
  }

  /** Reading back the printed form of an integer gives the integer. */
  lemma ParseIntString(n: int)
    ensures ParseInt(IntString(n)) == Some(n)
  {
    if n < 0 {
      NatStringValue(-n);
      assert IntString(n)[1..] == NatString(-n);
    } else {
      NatStringValue(n);
    }
  }

  /** A leading zero does not change the value of a digit text. */
  lemma {:induction false} LeadingZeroValue(s: string)
    requires forall i :: 0 <= i < |s| ==> IsDigit(s[i])
    ensures DigitsValue("0" + s) == DigitsValue(s)
    decreases |s|
  {
    if |s| > 0 {
      var init := s[..|s| - 1];
      assert ("0" + s)[..|s|] == "0" + init;
      assert ("0" + s)[|s|] == s[|s| - 1];
      LeadingZeroValue(init);
    }
  }

  /** `Number` ignores leading zeros: "007" reads as 7, like "7". */
  lemma LeadingZeroIgnored(s: string)
    requires IsDigits(s)
    ensures ParseInt("0" + s) == ParseInt(s)
  {
    LeadingZeroValue(s);
    assert IsDigits("0" + s);
  }
}

=== FILE: display.dfy ===
/**
 * The table cells that show free text: at most sixty characters of the
 * text, followed by an ellipsis only when something was cut off; a missing
 * or empty text shows a placeholder instead.  The ellipsis and placeholder
 * differ between pages and are parameters here.
 */
module Display {
  import opened Wrappers
  import opened Slicing

  const CellWidth: nat := 60

  /** `text.slice(0, 60) + (text.length > 60 ? ellipsis : '')`. */
  function Truncate(text: string, ellipsis: string): (r: string)
    ensures |text| <= CellWidth ==> r == text
    ensures |text| > CellWidth ==> r == text[..CellWidth] + ellipsis
  {
    Slice(text, 0, CellWidth) + (if |text| > CellWidth then ellipsis else "")
  }

  /** `text ? Truncate(text) : placeholder`: both an absent and an empty text are falsy. */
  function Cell(text: Option<string>, ellipsis: string, placeholder: string): (r: string)
    ensures text.None? || text.value == [] ==> r == placeholder
    ensures text.Some? && text.value != [] ==> r == Truncate(text.value, ellipsis)
  {
    match text
    case Some(t) => if t != [] then Truncate(t, ellipsis) else placeholder
    case None => placeholder
  }

  /** A shown text is never longer than the cell width plus the ellipsis, always
      starts with what fits of the stored text, and is cut exactly when the stored
      text is longer than the cell. */
  lemma TruncateShape(text: string, ellipsis: string)
    ensures |Truncate(text, ellipsis)| <= CellWidth + |ellipsis|
    ensures |text| <= CellWidth ==> |Truncate(text, ellipsis)| == |text|
    ensures |text| > CellWidth ==> |Truncate(text, ellipsis)| == CellWidth + |ellipsis|
    ensures var keep := if |text| <= CellWidth then |text| else CellWidth;
            Truncate(text, ellipsis)[..keep] == text[..keep]
  {
  }
}

=== FILE: doctors_page.dfy ===
/** The doctors page: list, create/edit form with its required fields, delete, bio cell. */
module DoctorsPage {
  import opened Wrappers
  import opened Types
  import opened IdOrder
  import opened ListOps
  import opened Display
  import opened ListPage

  type State = PageState<DoctorData, DoctorData>

  const EmptyForm := DoctorData("", "", Some(""))
  const MissingFields := "Name and specialty are required"
  const SaveError := "Failed to save doctor"
  const DeleteError := "Failed to delete doctor"
  const LoadError := "Failed to load doctors"

  /** The check `handleSubmit` makes before any request: `!formData.name` and
      `!formData.specialty` hold for the empty text, and each refuses the form. */
  predicate FormComplete(form: DoctorData): (b: bool)
    ensures form.name == [] || form.specialty == [] ==> !b
    ensures form.name != [] && form.specialty != [] ==> b
    ensures b ==> form != EmptyForm
  {
    form.name != [] && form.specialty != []
  }

  /** The outcome of the doctor-list fetch made on mount. */
  function Load(s: State, response: Response<seq<Doctor>>): (r: State)
    ensures !r.loading
    ensures response.Ok? ==> SortedDesc(r.items) && SameGroups(response.value, r.items)
    ensures response.Ok? ==> multiset(r.items) == multiset(response.value) && r.error == ""
    ensures response.Failed? ==> r.items == s.items && r.error == ErrorText(response.message, LoadError)
    // only the list, the loading flag and the error change
    ensures r == s.(items := r.items, loading := false, error := r.error)
  {
    match response
    case Ok(data) => Loaded(s, data).(error := "")
    case Failed(m) => s.(error := ErrorText(m, LoadError), loading := false)
  }

  /** "Edit" on a row: the form is filled with the row's fields (never its id). */
  function OpenEdit(s: State, doctor: Doctor): (r: State)
    ensures r.formOpen && r.editing == Some(doctor)
    ensures r.form.name == doctor.data.name && r.form.specialty == doctor.data.specialty
    ensures r.form.bio == doctor.data.bio
    // the record is recovered from its id and the form: nothing else is lost or added
    ensures Record(doctor.id, r.form) == doctor
    ensures r.items == s.items && r.currentPage == s.currentPage
    ensures r == s.(editing := Some(doctor), form := r.form, formOpen := true)
  {
    s.(editing := Some(doctor), form := doctor.data, formOpen := true)
  }

  /** Form submission.  An incomplete form is refused without a request, so the
      outcome of the service call plays no part; otherwise the outcome decides. */
  function Submit(s: State, response: Response<Doctor>): (r: State)
    ensures !FormComplete(s.form) ==> r == s.(error := MissingFields)
    ensures FormComplete(s.form) && response.Ok? ==> r == SaveSucceeded(s, response.value, EmptyForm)
    ensures FormComplete(s.form) && response.Failed? ==> r.items == s.items && r.formOpen == s.formOpen
    ensures FormComplete(s.form) && response.Failed? ==> r.error == ErrorText(response.message, SaveError)
    // a failed save keeps edit mode and the form's contents, so a retry is the same request
    ensures FormComplete(s.form) && response.Failed? ==> r == s.(error := ErrorText(response.message, SaveError))
  {
    if !FormComplete(s.form) then s.(error := MissingFields)
    else
      match response
      case Ok(saved) => SaveSucceeded(s, saved, EmptyForm)
      case Failed(m) => SaveFailed(s, m, SaveError)
  }

  /** A refused form is never sent: whatever the server would have answered,
      the page ends in the same state, with the list untouched. */
  lemma IncompleteFormSendsNothing(s: State, a: Response<Doctor>, b: Response<Doctor>)
    requires !FormComplete(s.form)
    ensures Submit(s, a) == Submit(s, b)
    ensures Submit(s, a).items == s.items && Submit(s, a).error == MissingFields
  {
  }

  /** An accepted update leaves exactly one row for the returned id, the returned
      record, in a list still ordered by descending id. */
  lemma UpdateReplaces(s: State, updated: Doctor)
    requires FormComplete(s.form) && s.editing.Some?
    ensures SortedDesc(Submit(s, Ok(updated)).items)
    ensures WithId(Submit(s, Ok(updated)).items, updated.id) == [updated]
    ensures forall j :: j != updated.id ==> WithId(Submit(s, Ok(updated)).items, j) == WithId(s.items, j)
  {
  }

  /** An accepted create adds the returned record, and nothing else. */
  lemma CreateAdds(s: State, created: Doctor)
    requires FormComplete(s.form) && s.editing.None?
    ensures SortedDesc(Submit(s, Ok(created)).items)
    ensures multiset(Submit(s, Ok(created)).items) == multiset(s.items) + multiset{created}
  {
  }

  /** A confirmed delete removes exactly the rows with the target's id. */
  function Delete(s: State, response: Response<()>): (r: State)
    ensures s.deleting.Some? && response.Ok? ==>
              forall d :: multiset(r.items)[d] ==
                          (if d.id == s.deleting.value.id then 0 else multiset(s.items)[d])
    ensures s.deleting.Some? && response.Ok? ==> Subsequence(r.items, s.items)
    ensures SortedDesc(s.items) ==> SortedDesc(r.items)
    ensures r == ConfirmDelete(s, response, DeleteError)
    // without a target nothing happens; a failed delete only closes the dialog and shows the message
    ensures s.deleting.None? ==> r == s
    ensures s.deleting.Some? && response.Failed? ==>
              r == s.(deleting := None, error := ErrorText(response.message, DeleteError))
  {
    ConfirmDelete(s, response, DeleteError)
  }

  /** The Bio cell: sixty characters, '…' when cut, '—' when there is no bio. */
  function BioCell(doctor: Doctor): (r: string)
    ensures doctor.data.bio.None? || doctor.data.bio.value == [] ==> r == "\U{2014}"
    ensures doctor.data.bio.Some? && |doctor.data.bio.value| > CellWidth ==>
              r == doctor.data.bio.value[..CellWidth] + "\U{2026}"
    ensures doctor.data.bio.Some? && 0 < |doctor.data.bio.value| <= CellWidth ==> r == doctor.data.bio.value
  {
    Cell(doctor.data.bio, "\U{2026}", "\U{2014}")
  }
}

=== FILE: id_order.dfy ===
/**
 * The order every resource list is kept in: descending by identifier, with
 * records of equal identifier left in their input order (the comparator
 * `(b.id ?? 0) - (a.id ?? 0)` handed to JavaScript's stable `Array.sort`).
 */
module IdOrder {
  import opened Types

  /** Identifiers never increase from left to right. */
  ghost predicate SortedDesc<D>(s: seq<Record<D>>) {
    forall i, j :: 0 <= i < j < |s| ==> s[i].id >= s[j].id
  }

  /** The records of `s` whose identifier is `k`, in their order in `s`. */
  function WithId<D>(s: seq<Record<D>>, k: int): (r: seq<Record<D>>)
    ensures |r| <= |s|
  {
    if |s| == 0 then []
    else (if s[0].id == k then [s[0]] else []) + WithId(s[1..], k)
  }

  /** `ys` is a stable rearrangement of `xs`: for every identifier, the
      records carrying it occur in `ys` in exactly the order they occur in `xs`. */
  ghost predicate SameGroups<D>(xs: seq<Record<D>>, ys: seq<Record<D>>) {
    forall k :: WithId(xs, k) == WithId(ys, k)
  }

  /** Places `x` in front of the first record whose id is not larger than its own. */
  function Insert<D>(x: Record<D>, ys: seq<Record<D>>): seq<Record<D>>
  {
    if |ys| == 0 || ys[0].id <= x.id then [x] + ys
    else [ys[0]] + Insert(x, ys[1..])
  }

  /** The list sort of all three pages (sortPatients, sortDoctors, sortAppointments). */
  function SortById<D>(xs: seq<Record<D>>): (r: seq<Record<D>>)
    ensures SortedDesc(r)
    ensures multiset(r) == multiset(xs)
    ensures |r| == |xs|
  {
    if |xs| == 0 then []
    else
      var rest := SortById(xs[1..]);
      InsertSorted(xs[0], rest);
      InsertCount(xs[0], rest);
      assert xs == [xs[0]] + xs[1..];
      Insert(xs[0], rest)
  }

  /** Every record of `s` has an id of at most `b`. */
  ghost predicate IdsAtMost<D>(s: seq<Record<D>>, b: int) {
    forall i :: 0 <= i < |s| ==> s[i].id <= b
  }

  lemma ConsSorted<D>(a: Record<D>, t: seq<Record<D>>)
    requires SortedDesc(t) && IdsAtMost(t, a.id)
    ensures SortedDesc([a] + t)
  {
    var s := [a] + t;
    forall i, j | 0 <= i < j < |s| ensures s[i].id >= s[j].id {
      assert s[j] == t[j - 1];
      if i > 0 {
        assert s[i] == t[i - 1];
      }
    }
  }

  lemma {:induction false} InsertBounded<D>(x: Record<D>, ys: seq<Record<D>>, b: int)
    requires x.id <= b && IdsAtMost(ys, b)
    ensures IdsAtMost(Insert(x, ys), b)
    decreases |ys|
  {
    if |ys| == 0 || ys[0].id <= x.id {
      assert forall i :: 0 < i < |ys| + 1 ==> ([x] + ys)[i] == ys[i - 1];
    } else {
      InsertBounded(x, ys[1..], b);
      var r := Insert(x, ys);
      assert forall i :: 0 < i < |r| ==> r[i] == Insert(x, ys[1..])[i - 1];
    }
  }

  lemma {:induction false} InsertSorted<D>(x: Record<D>, ys: seq<Record<D>>)
    requires SortedDesc(ys)
    ensures SortedDesc(Insert(x, ys))
    decreases |ys|
  {
    if |ys| == 0 || ys[0].id <= x.id {
      forall i | 0 <= i < |ys| ensures ys[i].id <= x.id {
        if i > 0 {
          assert ys[0].id >= ys[i].id;
        }
      }
      ConsSorted(x, ys);
    } else {
      var tail := ys[1..];
      InsertSorted(x, tail);
      assert IdsAtMost(tail, ys[0].id) by {
        forall i | 0 <= i < |tail| ensures tail[i].id <= ys[0].id {
          assert tail[i] == ys[i + 1];
        }
      }
      InsertBounded(x, tail, ys[0].id);
      ConsSorted(ys[0], Insert(x, tail));
    }
  }

  lemma {:induction false} InsertCount<D>(x: Record<D>, ys: seq<Record<D>>)
    ensures multiset(Insert(x, ys)) == multiset(ys) + multiset{x}
    ensures |Insert(x, ys)| == |ys| + 1
    decreases |ys|
  {
    if |ys| > 0 && ys[0].id > x.id {
      InsertCount(x, ys[1..]);
      assert ys == [ys[0]] + ys[1..];
    }
  }

  lemma {:induction false} WithIdAppend<D>(a: seq<Record<D>>, b: seq<Record<D>>, k: int)
    ensures WithId(a + b, k) == WithId(a, k) + WithId(b, k)
    decreases |a|
  {
    if |a| == 0 {
      assert a + b == b;
    } else {
      var ab := a + b;
      assert ab[0] == a[0];
      assert ab[1..] == a[1..] + b;
      WithIdAppend(a[1..], b, k);
      var h: seq<Record<D>> := if a[0].id == k then [a[0]] else [];
      calc {
        WithId(ab, k);
        h + WithId(ab[1..], k);
        h + (WithId(a[1..], k) + WithId(b, k));
        (h + WithId(a[1..], k)) + WithId(b, k);
      }
    }
  }

  /** A record is in k's group exactly when it is in the list and has id k. */
  lemma {:induction false} WithIdMember<D>(s: seq<Record<D>>, k: int, x: Record<D>)
    ensures x in WithId(s, k) <==> x in s && x.id == k
    decreases |s|
  {
    if |s| > 0 {
      WithIdMember(s[1..], k, x);
      assert s == [s[0]] + s[1..];
    }
  }

  /** Inserting `x` in front of every record of its own id keeps each
      identifier's group in order, with `x` at the head of its group. */
  lemma {:induction false} InsertGroups<D>(x: Record<D>, ys: seq<Record<D>>, k: int)
    ensures WithId(Insert(x, ys), k) == WithId([x], k) + WithId(ys, k)
    decreases |ys|
  {
    if |ys| == 0 || ys[0].id <= x.id {
      WithIdAppend([x], ys, k);
    } else {
      var tail := ys[1..];
      InsertGroups(x, tail, k);
      WithIdAppend([ys[0]], Insert(x, tail), k);
      WithIdAppend([ys[0]], tail, k);
      assert ys == [ys[0]] + tail;
      // ys[0] and x have different ids, so at most one of them is in k's group
      assert WithId([ys[0]], k) == [] || WithId([x], k) == [];
    }
  }

  /** The sort is stable: each identifier's records keep their input order. */
  lemma {:induction false} SortStable<D>(xs: seq<Record<D>>)
    ensures SameGroups(xs, SortById(xs))
    decreases |xs|
  {
    if |xs| > 0 {
      SortStable(xs[1..]);
      forall k ensures WithId(xs, k) == WithId(SortById(xs), k) {
        InsertGroups(xs[0], SortById(xs[1..]), k);
        WithIdAppend([xs[0]], xs[1..], k);
        assert xs == [xs[0]] + xs[1..];
      }
    }
  }

  /** A record of maximal id in a descending list sits at its head. */
  lemma HeadIsMax<D>(s: seq<Record<D>>, x: Record<D>)
    requires SortedDesc(s) && x in s
    ensures |s| > 0 && s[0].id >= x.id
  {
    var i :| 0 <= i < |s| && s[i] == x;
    if i > 0 {
      assert s[0].id >= s[i].id;
    }
  }

  lemma TailGroup<D>(s: seq<Record<D>>, k: int)
    requires |s| > 0
    ensures WithId(s, k) == (if s[0].id == k then [s[0]] else []) + WithId(s[1..], k)
  {
  }

  /** Lists with the same groups that agree on their head still have the same groups after it. */
  lemma TailsSameGroups<D>(ys: seq<Record<D>>, zs: seq<Record<D>>)
    requires |ys| > 0 && |zs| > 0 && ys[0] == zs[0]
    requires SameGroups(ys, zs)
    ensures SameGroups(ys[1..], zs[1..])
  {
    forall k ensures WithId(ys[1..], k) == WithId(zs[1..], k) {
      TailGroup(ys, k);
      TailGroup(zs, k);
      assert WithId(ys, k) == WithId(zs, k);
      if ys[0].id == k {
        assert WithId(ys, k)[1..] == WithId(ys[1..], k);
        assert WithId(zs, k)[1..] == WithId(zs[1..], k);
      } else {
        assert WithId(ys, k) == WithId(ys[1..], k);
        assert WithId(zs, k) == WithId(zs[1..], k);
      }
    }
  }

  /** Two descending lists with the same groups start with the same record. */
  lemma SameHead<D>(ys: seq<Record<D>>, zs: seq<Record<D>>)
    requires SortedDesc(ys) && SortedDesc(zs)
    requires SameGroups(ys, zs)
    requires |ys| > 0
    ensures |zs| > 0 && ys[0] == zs[0]
  {
    WithIdMember(ys, ys[0].id, ys[0]);
    assert WithId(ys, ys[0].id) == WithId(zs, ys[0].id);
    WithIdMember(zs, ys[0].id, ys[0]);
    HeadIsMax(zs, ys[0]);
    WithIdMember(zs, zs[0].id, zs[0]);
    assert WithId(ys, zs[0].id) == WithId(zs, zs[0].id);
    WithIdMember(ys, zs[0].id, zs[0]);
    HeadIsMax(ys, zs[0]);
    var m := ys[0].id;
    TailGroup(ys, m);
    TailGroup(zs, m);
    assert WithId(ys, m)[0] == ys[0];
    assert WithId(zs, m)[0] == zs[0];
  }

  /** Two descending lists with the same groups are the same list. */
  lemma {:induction false} SortedSameGroupsEqual<D>(ys: seq<Record<D>>, zs: seq<Record<D>>)
    requires SortedDesc(ys) && SortedDesc(zs)
    requires SameGroups(ys, zs)
    ensures ys == zs
    decreases |ys|
  {
    if |ys| == 0 {
      if |zs| > 0 {
        WithIdMember(zs, zs[0].id, zs[0]);
      }
    } else {
      SameHead(ys, zs);
      TailsSameGroups(ys, zs);
      SortedSameGroupsEqual(ys[1..], zs[1..]);
      assert ys == [ys[0]] + ys[1..];
      assert zs == [zs[0]] + zs[1..];
    }
  }

  /** The sort is the one and only stable descending rearrangement of its input:
      any descending `ys` that keeps every id group of `xs` in order is SortById(xs). */
  lemma SortUnique<D>(xs: seq<Record<D>>, ys: seq<Record<D>>)
    requires SortedDesc(ys) && SameGroups(xs, ys)
    ensures ys == SortById(xs)
  {
    SortStable(xs);
    SortedSameGroupsEqual(ys, SortById(xs));
  }

  /** Sorting a list that is already in order leaves it unchanged. */
  lemma SortSortedIsIdentity<D>(xs: seq<Record<D>>)
    requires SortedDesc(xs)
    ensures SortById(xs) == xs
  {
    SortUnique(xs, xs);
  }
}

=== FILE: list_ops.dfy ===
/**
 * The three list updates every resource page applies after a successful
 * service call: replace-and-sort after an update, prepend-and-sort after a
 * create, and a plain filter (no re-sort) after a delete.
 */
module ListOps {
  import opened Types
  import opened IdOrder

  /** The records of `s` whose identifier is not `k`, in their order in `s`. */
  function WithoutId<D>(s: seq<Record<D>>, k: int): (r: seq<Record<D>>)
    ensures |r| <= |s|
    ensures forall i :: 0 <= i < |r| ==> r[i].id != k
  {
    if |s| == 0 then []
    else (if s[0].id != k then [s[0]] else []) + WithoutId(s[1..], k)
  }

  /** `a` can be obtained from `b` by deleting elements. */
  ghost predicate Subsequence<T>(a: seq<T>, b: seq<T>)
    decreases |b|
  {
    if |a| == 0 then true
    else if |b| == 0 then false
    else if a[0] == b[0] then Subsequence(a[1..], b[1..])
    else Subsequence(a, b[1..])
  }

  lemma {:induction false} WithoutIdGroups<D>(s: seq<Record<D>>, k: int, j: int)
    ensures WithId(WithoutId(s, k), j) == if j == k then [] else WithId(s, j)
    decreases |s|
  {
    if |s| > 0 {
      WithoutIdGroups(s[1..], k, j);
      var h: seq<Record<D>> := if s[0].id != k then [s[0]] else [];
      WithIdAppend(h, WithoutId(s[1..], k), j);
      TailGroup(s, j);
    }
  }

  lemma {:induction false} WithoutIdCount<D>(s: seq<Record<D>>, k: int)
    ensures forall x :: multiset(WithoutId(s, k))[x] == if x.id == k then 0 else multiset(s)[x]
    decreases |s|
  {
    if |s| > 0 {
      WithoutIdCount(s[1..], k);
      assert s == [s[0]] + s[1..];
    }
  }

  lemma {:induction false} WithoutIdSubsequence<D>(s: seq<Record<D>>, k: int)
    ensures Subsequence(WithoutId(s, k), s)
    decreases |s|
  {
    if |s| > 0 {
      WithoutIdSubsequence(s[1..], k);
      if s[0].id != k {
        assert WithoutId(s, k) == [s[0]] + WithoutId(s[1..], k);
        assert WithoutId(s, k)[1..] == WithoutId(s[1..], k);
      } else if |WithoutId(s, k)| > 0 {
        assert WithoutId(s, k) == WithoutId(s[1..], k);
        assert WithoutId(s, k)[0] != s[0];
      }
    }
  }

  lemma {:induction false} SubsequenceMembers<T>(a: seq<T>, b: seq<T>)
    requires Subsequence(a, b)
    ensures forall x :: x in a ==> x in b
    decreases |b|
  {
    if |a| > 0 && |b| > 0 {
      if a[0] == b[0] {
        SubsequenceMembers(a[1..], b[1..]);
        assert a == [a[0]] + a[1..];
      } else {
        SubsequenceMembers(a, b[1..]);
      }
    }
  }

  /** Deleting elements from a descending list leaves it descending. */
  lemma {:induction false} SubsequenceSorted<D>(a: seq<Record<D>>, b: seq<Record<D>>)
    requires Subsequence(a, b) && SortedDesc(b)
    ensures SortedDesc(a)
    decreases |b|
  {
    if |a| > 0 && |b| > 0 {
      assert SortedDesc(b[1..]);
      if a[0] == b[0] {
        SubsequenceSorted(a[1..], b[1..]);
        SubsequenceMembers(a[1..], b[1..]);
        assert IdsAtMost(a[1..], a[0].id) by {
          forall i | 0 <= i < |a[1..]| ensures a[1..][i].id <= a[0].id {
            assert a[1..][i] in b[1..];
          }
        }
        ConsSorted(a[0], a[1..]);
        assert a == [a[0]] + a[1..];
      } else {
        SubsequenceSorted(a, b[1..]);
      }
    }
  }

  /** The list after a successful delete of the record with id `k`. */
  function RemoveId<D(!new)>(prev: seq<Record<D>>, k: int): (r: seq<Record<D>>)
    ensures forall x :: multiset(r)[x] == if x.id == k then 0 else multiset(prev)[x]
    ensures forall j :: WithId(r, j) == if j == k then [] else WithId(prev, j)
    ensures Subsequence(r, prev)
    ensures SortedDesc(prev) ==> SortedDesc(r)
  {
    WithoutIdCount(prev, k);
    WithoutIdSubsequence(prev, k);
    AllWithoutIdGroups(prev, k);
    SortedWithoutId(prev, k);
    WithoutId(prev, k)
  }

  lemma AllWithoutIdGroups<D>(s: seq<Record<D>>, k: int)
    ensures forall j :: WithId(WithoutId(s, k), j) == if j == k then [] else WithId(s, j)
  {
    forall j ensures WithId(WithoutId(s, k), j) == if j == k then [] else WithId(s, j) {
      WithoutIdGroups(s, k, j);
    }
  }

  lemma SortedWithoutId<D>(s: seq<Record<D>>, k: int)
    ensures SortedDesc(s) ==> SortedDesc(WithoutId(s, k))
  {
    if SortedDesc(s) {
      WithoutIdSubsequence(s, k);
      SubsequenceSorted(WithoutId(s, k), s);
    }
  }

  /** The list after a successful update that returned `updated`. */
  function MergeUpdated<D(!new)>(prev: seq<Record<D>>, updated: Record<D>): (r: seq<Record<D>>)
    ensures SortedDesc(r)
    ensures WithId(r, updated.id) == [updated]
    ensures forall j :: j != updated.id ==> WithId(r, j) == WithId(prev, j)
    ensures forall x :: multiset(r)[x] ==
                        (if x == updated then 1 else if x.id == updated.id then 0 else multiset(prev)[x])
  {
    var rest := WithoutId(prev, updated.id);
    var xs := [updated] + rest;
    WithoutIdCount(prev, updated.id);
    UpdatedGroups(prev, updated);
    SortById(xs)
  }

  lemma UpdatedGroups<D>(prev: seq<Record<D>>, updated: Record<D>)
    ensures forall j :: WithId(SortById([updated] + WithoutId(prev, updated.id)), j) ==
                        (if j == updated.id then [updated] else WithId(prev, j))
  {
    var rest := WithoutId(prev, updated.id);
    SortStable([updated] + rest);
    forall j ensures WithId(SortById([updated] + rest), j) == if j == updated.id then [updated] else WithId(prev, j) {
      WithIdAppend([updated], rest, j);
      WithoutIdGroups(prev, updated.id, j);
    }
  }

  /** The list after a successful create that returned `created`. */
  function MergeCreated<D>(prev: seq<Record<D>>, created: Record<D>): (r: seq<Record<D>>)
    ensures SortedDesc(r)
    ensures |r| == |prev| + 1
    ensures multiset(r) == multiset(prev) + multiset{created}
    ensures WithId(r, created.id) == [created] + WithId(prev, created.id)
    ensures forall j :: j != created.id ==> WithId(r, j) == WithId(prev, j)
  {
    CreatedGroups(prev, created);
    SortById([created] + prev)
  }

  lemma CreatedGroups<D>(prev: seq<Record<D>>, created: Record<D>)
    ensures forall j :: WithId(SortById([created] + prev), j) == WithId([created], j) + WithId(prev, j)
  {
    SortStable([created] + prev);
    forall j ensures WithId(SortById([created] + prev), j) == WithId([created], j) + WithId(prev, j) {
      WithIdAppend([created], prev, j);
    }
  }

  /** A created record whose id is larger than every id already listed lands
      at the head of the list, in front of the unchanged previous list. */
  lemma CreatedOnTop<D>(prev: seq<Record<D>>, created: Record<D>)
    requires SortedDesc(prev)
    requires forall i :: 0 <= i < |prev| ==> prev[i].id < created.id
    ensures MergeCreated(prev, created) == [created] + prev
  {
    ConsSorted(created, prev);
    SortSortedIsIdentity([created] + prev);
  }

  /** Deleting from a list the pages keep in order needs no re-sort: the
      result is exactly what sorting it would give. */
  lemma RemoveKeepsOrder<D(!new)>(prev: seq<Record<D>>, k: int)
    requires SortedDesc(prev)
    ensures SortById(RemoveId(prev, k)) == RemoveId(prev, k)
  {
    SortSortedIsIdentity(RemoveId(prev, k));
  }
}

=== FILE: list_page.dfy ===
/**
 * The state every resource page holds and the transitions they share: the
 * fetched list, the current page, the error banner, the create/edit form
 * and the delete confirmation.  `D` is the resource's fields, `F` the
 * shape of its form.
 */
module ListPage {
  import opened Wrappers
  import opened Types
  import opened IdOrder
  import opened ListOps
  import opened Paging

  datatype PageState<D, F> = PageState(
    items: seq<Record<D>>,
    loading: bool,
    currentPage: int,
    error: string,
    formOpen: bool,
    editing: Option<Record<D>>,
    form: F,
    deleting: Option<Record<D>>)

  /** What holds between events: the list is in descending id order and the
      current page is a real page of it. */
  ghost predicate Valid<D, F>(s: PageState<D, F>) {
    SortedDesc(s.items) && 1 <= s.currentPage <= TotalPages(|s.items|)
  }

  /** The state a page mounts with: nothing fetched yet, page 1, no dialog open. */
  function Initial<D, F>(emptyForm: F): (s: PageState<D, F>)
    ensures Valid(s) && s.loading && s.items == [] && s.currentPage == 1
    ensures s.error == "" && !s.formOpen && s.editing.None? && s.deleting.None? && s.form == emptyForm
  {
    PageState([], true, 1, "", false, None, emptyForm, None)
  }

  /** The clamp effect, run after every change of the list or of the page. */
  function Settle<D, F>(s: PageState<D, F>): (r: PageState<D, F>)
    ensures r.items == s.items
    ensures r.currentPage <= TotalPages(|r.items|)
    ensures s.currentPage >= 1 ==> r.currentPage >= 1
    ensures s.currentPage <= TotalPages(|s.items|) ==> r == s
    ensures s.currentPage > TotalPages(|s.items|) ==> r.currentPage == TotalPages(|s.items|)
    ensures r == s.(currentPage := r.currentPage)
  {
    s.(currentPage := ClampPage(s.currentPage, |s.items|))
  }

  /** The records on the current page. */
  function Visible<D, F>(s: PageState<D, F>): (r: seq<Record<D>>)
    ensures |r| <= PageSize
    ensures s.currentPage >= 1 ==> forall i :: 0 <= i < |r| ==> r[i] in s.items
    // row i of page p is record (p-1)*10+i, and the page holds every record up to the tenth
    ensures s.currentPage >= 1 ==>
              |r| == (if |s.items| <= (s.currentPage - 1) * PageSize then 0
                      else if |s.items| - (s.currentPage - 1) * PageSize < PageSize
                      then |s.items| - (s.currentPage - 1) * PageSize
                      else PageSize)
    ensures s.currentPage >= 1 ==>
              forall i :: 0 <= i < |r| ==> r[i] == s.items[(s.currentPage - 1) * PageSize + i]
  {
    PageSlice(s.items, s.currentPage)
  }

  /** Between events a non-empty list never shows an empty page. */
  lemma VisibleNotEmpty<D, F>(s: PageState<D, F>)
    requires Valid(s) && |s.items| > 0
    ensures |Visible(s)| > 0
  {
    ValidPageNotEmpty(s.items, s.currentPage);
  }

  /** A successful fetch replaces the whole list with the response, sorted. */
  function Loaded<D, F>(s: PageState<D, F>, data: seq<Record<D>>): (r: PageState<D, F>)
    ensures SortedDesc(r.items) && multiset(r.items) == multiset(data)
    ensures SameGroups(data, r.items)
    ensures !r.loading
    ensures r == s.(items := r.items, loading := false)
  {
    SortStable(data);
    s.(items := SortById(data), loading := false)
  }

  /** The "Add" button: an empty form in create mode. */
  function OpenCreate<D, F>(s: PageState<D, F>, emptyForm: F): PageState<D, F>
  {
    s.(editing := None, form := emptyForm, formOpen := true)
  }

  /** Cancel or dismiss of the form modal. */
  function CloseForm<D, F>(s: PageState<D, F>, emptyForm: F): PageState<D, F>
  {
    s.(formOpen := false, editing := None, form := emptyForm)
  }

  /** A create or update the server accepted: the returned record is merged
      (replace-and-sort in edit mode, prepend-and-sort otherwise), the form is
      closed and emptied, the page goes back to 1 and the error is cleared. */
  function SaveSucceeded<D(!new), F>(s: PageState<D, F>, saved: Record<D>, emptyForm: F): (r: PageState<D, F>)
    ensures SortedDesc(r.items)
    ensures s.editing.Some? ==> WithId(r.items, saved.id) == [saved]
    ensures s.editing.None? ==> |r.items| == |s.items| + 1
    ensures s.editing.None? ==> WithId(r.items, saved.id) == [saved] + WithId(s.items, saved.id)
    ensures forall j :: j != saved.id ==> WithId(r.items, j) == WithId(s.items, j)
    ensures !r.formOpen && r.editing.None? && r.form == emptyForm
    ensures r.currentPage == 1 && r.error == ""
    ensures r.loading == s.loading && r.deleting == s.deleting
  {
    var items := if s.editing.Some? then MergeUpdated(s.items, saved) else MergeCreated(s.items, saved);
    s.(items := items, formOpen := false, editing := None, form := emptyForm, currentPage := 1, error := "")
  }

  /** A create or update the server refused: the message is shown and the
      form stays open with its contents. */
  function SaveFailed<D, F>(s: PageState<D, F>, message: Option<string>, default: string): (r: PageState<D, F>)
    ensures r.error == ErrorText(message, default)
    ensures default != [] ==> r.error != []
    ensures r == s.(error := r.error)
  {
    s.(error := ErrorText(message, default))
  }

  /** Pressing a row's "Delete" asks for confirmation first. */
  function RequestDelete<D, F>(s: PageState<D, F>, target: Record<D>): PageState<D, F>
  {
    s.(deleting := Some(target))
  }

  /** "Confirm" in the delete dialog.  Without a target nothing happens.  The
      dialog closes whatever the outcome; on success every record with the
      target's id leaves the list, on failure the message is shown. */
  function ConfirmDelete<D(!new), F>(s: PageState<D, F>, response: Response<()>, default: string): (r: PageState<D, F>)
    ensures s.deleting.None? ==> r == s
    ensures s.deleting.Some? ==> r.deleting.None?
    ensures s.deleting.Some? && response.Ok? ==>
              r.items == RemoveId(s.items, s.deleting.value.id) && r.error == s.error
    ensures s.deleting.Some? && response.Failed? ==>
              r.items == s.items && r.error == ErrorText(response.message, default)
    ensures r.currentPage == s.currentPage && r.formOpen == s.formOpen && r.form == s.form
    ensures r.editing == s.editing && r.loading == s.loading
  {
    match s.deleting
    case None => s
    case Some(target) =>
      match response
      case Ok(_) => s.(items := RemoveId(s.items, target.id), deleting := None)
      case Failed(m) => s.(error := ErrorText(m, default), deleting := None)
  }

  /** Every list change, followed by the clamp effect, keeps the page valid. */
  lemma LoadedValid<D, F>(s: PageState<D, F>, data: seq<Record<D>>)
    requires s.currentPage >= 1
    ensures Valid(Settle(Loaded(s, data)))
  {
  }

  lemma SaveSucceededValid<D(!new), F>(s: PageState<D, F>, saved: Record<D>, emptyForm: F)
    ensures Valid(Settle(SaveSucceeded(s, saved, emptyForm)))
    ensures Settle(SaveSucceeded(s, saved, emptyForm)) == SaveSucceeded(s, saved, emptyForm)
  {
  }

  lemma ConfirmDeleteValid<D(!new), F>(s: PageState<D, F>, response: Response<()>, default: string)
    requires Valid(s)
    ensures Valid(Settle(ConfirmDelete(s, response, default)))
  {
  }
}

=== FILE: pagination.dfy ===
/** The Previous / Next control: each move is clamped to [1, totalPages]. */
module Pagination {

  /** `Math.max(1, currentPage - 1)`. */
  function GoToPrevious(currentPage: int): (r: int)
    ensures r >= 1
    ensures currentPage > 1 ==> r == currentPage - 1
    ensures currentPage <= 1 ==> r == 1
  {
    if currentPage - 1 > 1 then currentPage - 1 else 1
  }

  /** `Math.min(totalPages, currentPage + 1)`. */
  function GoToNext(currentPage: int, totalPages: int): (r: int)
    ensures r <= totalPages
    ensures currentPage < totalPages ==> r == currentPage + 1
    ensures currentPage >= totalPages ==> r == totalPages
  {
    if currentPage + 1 < totalPages then currentPage + 1 else totalPages
  }

  /** `disabled={currentPage === 1}`: set exactly when Previous would not move. */
  predicate PreviousDisabled(currentPage: int): (b: bool)
    ensures currentPage >= 1 ==> (b <==> GoToPrevious(currentPage) == currentPage)
  {
    currentPage == 1
  }

  /** `disabled={currentPage === totalPages}`: set exactly when Next would not move. */
  predicate NextDisabled(currentPage: int, totalPages: int): (b: bool)
    ensures currentPage <= totalPages ==> (b <==> GoToNext(currentPage, totalPages) == currentPage)
  {
    currentPage == totalPages
  }

  /** From a valid page, both moves land on a valid page. */
  lemma MovesStayInRange(currentPage: int, totalPages: int)
    requires 1 <= currentPage <= totalPages
    ensures 1 <= GoToPrevious(currentPage) <= totalPages
    ensures 1 <= GoToNext(currentPage, totalPages) <= totalPages
  {
  }

  /** Previous is disabled exactly when pressing it would not change the page. */
  lemma PreviousDisabledIffNoOp(currentPage: int)
    requires currentPage >= 1
    ensures PreviousDisabled(currentPage) <==> GoToPrevious(currentPage) == currentPage
  {
  }

  /** Next is disabled exactly when pressing it would not change the page. */
  lemma NextDisabledIffNoOp(currentPage: int, totalPages: int)
    requires currentPage <= totalPages
    ensures NextDisabled(currentPage, totalPages) <==> GoToNext(currentPage, totalPages) == currentPage
  {
  }
}

=== FILE: paging.dfy ===
/**
 * The pagination arithmetic shared by the three resource pages: ten records
 * per page, a page count of max(1, ceil(n / 10)), the page slice, and the
 * effect that pulls the current page back when the list shrinks.
 */
module Paging {
  import opened Slicing

  const PageSize: nat := 10

  /** `Math.max(1, Math.ceil(n / pageSize))`. */
  function TotalPages(n: nat): (t: int)
    ensures t >= 1
    // enough pages to show every record ...
    ensures t * PageSize >= n
    // ... and not one more than needed
    ensures t == 1 || (t - 1) * PageSize < n
  {
    var pages := (n + PageSize - 1) / PageSize;
    if pages < 1 then 1 else pages
  }

  /** The effect run whenever the list or the current page changes: a page
      beyond the last one is replaced by the last one. */
  function ClampPage(page: int, n: nat): (r: int)
    ensures r <= TotalPages(n)
    ensures r == page <==> page <= TotalPages(n)
    ensures page > TotalPages(n) ==> r == TotalPages(n)
    ensures page >= 1 ==> r >= 1
  {
    var maxPage := TotalPages(n);
    if page > maxPage then maxPage else page
  }

  /** The records shown on `page`: `list.slice(start, start + pageSize)` with
      `start = (page - 1) * pageSize`. */
  function PageSlice<T>(list: seq<T>, page: int): (r: seq<T>)
    ensures |r| <= PageSize
    ensures page >= 1 ==> forall i :: 0 <= i < |r| ==>
              (page - 1) * PageSize + i < |list| && r[i] == list[(page - 1) * PageSize + i]
    ensures page >= 1 ==>
              |r| == (if |list| <= (page - 1) * PageSize then 0
                      else if |list| - (page - 1) * PageSize < PageSize then |list| - (page - 1) * PageSize
                      else PageSize)
  {
    var start := (page - 1) * PageSize;
    Slice(list, start, start + PageSize)
  }

  lemma ClampIdempotent(page: int, n: nat)
    ensures ClampPage(ClampPage(page, n), n) == ClampPage(page, n)
  {
  }

  /** After the effect has run, a page that started at 1 or above is a valid page. */
  lemma ClampInRange(page: int, n: nat)
    requires page >= 1
    ensures 1 <= ClampPage(page, n) <= TotalPages(n)
  {
  }

  /** A valid page of a non-empty list is never empty. */
  lemma ValidPageNotEmpty<T>(list: seq<T>, page: int)
    requires |list| > 0 && 1 <= page <= TotalPages(|list|)
    ensures |PageSlice(list, page)| > 0
  {
    assert (page - 1) * PageSize < |list|;
  }

  /** The record at index `i` is shown on page `i / 10 + 1`, at row `i % 10`,
      and that page is a valid one. */
  lemma RecordPage<T>(list: seq<T>, i: nat)
    requires i < |list|
    ensures 1 <= i / PageSize + 1 <= TotalPages(|list|)
    ensures |PageSlice(list, i / PageSize + 1)| > i % PageSize
    ensures PageSlice(list, i / PageSize + 1)[i % PageSize] == list[i]
  {
    var p := i / PageSize + 1;
    assert (p - 1) * PageSize + i % PageSize == i;
  }

  /** The pages from `first` to `last`, one after the other. */
  function Pages<T>(list: seq<T>, first: int, last: int): seq<T>
    decreases last - first
  {
    if first > last then [] else PageSlice(list, first) + Pages(list, first + 1, last)
  }

  lemma {:induction false} PagesFrom<T>(list: seq<T>, first: int)
    requires 1 <= first <= TotalPages(|list|) + 1
    ensures (first - 1) * PageSize <= |list| || first == TotalPages(|list|) + 1
    ensures Pages(list, first, TotalPages(|list|)) ==
            (if (first - 1) * PageSize <= |list| then list[(first - 1) * PageSize..] else [])
    decreases TotalPages(|list|) - first
  {
    var t := TotalPages(|list|);
    var start := (first - 1) * PageSize;
    if first <= t {
      assert start < |list| || (|list| == 0 && first == 1);
      PagesFrom(list, first + 1);
      var page := PageSlice(list, first);
      if start + PageSize <= |list| {
        assert page == list[start..start + PageSize];
        assert list[start..] == page + list[start + PageSize..];
      } else {
        assert page == list[start..];
        assert first + 1 == t + 1;
      }
    }
  }

  /** Pages 1 to TotalPages(|list|), in order, show every record exactly once. */
  lemma PagesCoverList<T>(list: seq<T>)
    ensures Pages(list, 1, TotalPages(|list|)) == list
  {
    PagesFrom(list, 1);
  }
}

=== FILE: patients_page.dfy ===
/**
 * The patients page: the patient list with a selected patient whose
 * appointments are shown beside it, the create/edit form, delete, and the
 * text cells of both tables.
 */
module PatientsPage {
  import opened Wrappers
  import opened Types
  import opened IdOrder
  import opened ListOps
  import opened Decimal
  import opened Display
  import opened ListPage

  datatype State = State(
    list: PageState<PatientData, PatientPayload>,
    selected: Option<Patient>,
    appointments: seq<Appointment>,
    appointmentsError: string,
    doctorsById: map<int, Doctor>)

  const EmptyForm := PatientPayload(Some(""), None, Some(""), Some(""))
  const LoadError := "Failed to load data"
  const AppointmentsLoadError := "Failed to load appointments"
  const SaveError := "Failed to save patient"
  const DeleteError := "Failed to delete patient"

  /** The last element of a non-empty sequence. */
  function Last<T>(s: seq<T>): T
    requires |s| > 0
  {
    s[|s| - 1]
  }

  /** The doctor lookup: each doctor stored under its id, a later doctor with
      the same id overwriting an earlier one. */
  function MapDoctorsById(list: seq<Doctor>): (m: map<int, Doctor>)
    ensures forall k :: k in m <==> WithId(list, k) != []
    ensures forall k :: k in m ==> m[k] == Last(WithId(list, k))
  {
    if |list| == 0 then map[]
    else
      var init, doc := list[..|list| - 1], list[|list| - 1];
      assert list == init + [doc];
      LastGroups(init, doc);
      MapDoctorsById(init)[doc.id := doc]
  }

  lemma LastGroups(init: seq<Doctor>, doc: Doctor)
    ensures forall k :: WithId(init + [doc], k) == WithId(init, k) + (if doc.id == k then [doc] else [])
  {
    forall k ensures WithId(init + [doc], k) == WithId(init, k) + (if doc.id == k then [doc] else []) {
      WithIdAppend(init, [doc], k);
    }
  }

  /** `list.find(p => p.id === k)`: the first record with id `k`. */
  function FindById<D>(list: seq<Record<D>>, k: int): (r: Option<Record<D>>)
    ensures r.None? <==> WithId(list, k) == []
    ensures r.Some? ==> r.value == WithId(list, k)[0]
    ensures r.Some? ==> r.value in list && r.value.id == k
  {
    if |list| == 0 then None
    else if list[0].id == k then Some(list[0])
    else FindById(list[1..], k)
  }

  /** The selection after a reload: the same patient (by id) when the new list
      still has it, else the first patient, else none. */
  function Reselect(sorted: seq<Patient>, previous: Option<Patient>): (r: Option<Patient>)
    ensures |sorted| == 0 ==> r.None?
    ensures |sorted| > 0 ==> r.Some? && r.value in sorted
    ensures previous.Some? && WithId(sorted, previous.value.id) != [] ==>
              r == Some(WithId(sorted, previous.value.id)[0])
    ensures |sorted| > 0 && (previous.None? || WithId(sorted, previous.value.id) == []) ==>
              r == Some(sorted[0])
  {
    if |sorted| > 0 then
      var existing := if previous.Some? then FindById(sorted, previous.value.id) else None;
      Some(existing.GetOr(sorted[0]))
    else None
  }

  /** The outcome of the mount-time fetch of patients and doctors together. */
  function LoadInitialData(s: State, response: Response<(seq<Patient>, seq<Doctor>)>): (r: State)
    ensures !r.list.loading
    ensures response.Ok? ==> SortedDesc(r.list.items) && SameGroups(response.value.0, r.list.items)
    ensures response.Ok? ==> r.list.error == "" && r.doctorsById == MapDoctorsById(response.value.1)
    ensures response.Ok? ==> r.selected == Reselect(r.list.items, s.selected)
    ensures response.Failed? ==> r.list.items == s.list.items && r.selected == s.selected
    ensures response.Failed? ==> r.list.error == ErrorText(response.message, LoadError)
    // a failure changes only the loading flag and the error
    ensures response.Failed? ==>
              r == s.(list := s.list.(loading := false, error := ErrorText(response.message, LoadError)))
    // a success changes only the list, the flag, the error, the lookup and the selection
    ensures response.Ok? ==>
              r == s.(list := s.list.(items := r.list.items, loading := false, error := ""),
                      doctorsById := r.doctorsById, selected := r.selected)
  {
    var started := s.(list := s.list.(loading := true, error := ""));
    match response
    case Ok((patients, doctors)) =>
      var list := Loaded(started.list, patients);
      started.(list := list, doctorsById := MapDoctorsById(doctors),
               selected := Reselect(list.items, s.selected))
    case Failed(m) =>
      started.(list := started.list.(error := ErrorText(m, LoadError), loading := false))
  }

  /** Whose appointments the side panel fetches: the selected patient's, when
      one is selected and its id is truthy (non-zero); None when nothing is fetched. */
  function AppointmentsQuery(selected: Option<Patient>): (r: Option<int>)
    ensures r.Some? <==> selected.Some? && selected.value.id != 0
    ensures r.Some? ==> r.value == selected.value.id
  {
    if selected.Some? && selected.value.id != 0 then Some(selected.value.id) else None
  }

  /** The effect run when the selected id changes: start fetching that patient's
      appointments, which clears the panel's error at once (the list waits for
      `AppointmentsLoaded`), or empty the panel. */
  function SelectionChanged(s: State): (r: (State, Option<int>))
    ensures r.1 == AppointmentsQuery(s.selected)
    ensures s.selected.Some? && s.selected.value.id != 0 ==>
              r.0 == s.(appointmentsError := "") && r.1 == Some(s.selected.value.id)
    ensures s.selected.None? || s.selected.value.id == 0 ==> r.0 == s.(appointments := []) && r.1.None?
  {
    match AppointmentsQuery(s.selected)
    case Some(id) => (s.(appointmentsError := ""), Some(id))
    case None => (s.(appointments := []), None)
  }

  /** The outcome of the side panel's fetch: the appointments, sorted, or a message. */
  function AppointmentsLoaded(s: State, response: Response<seq<Appointment>>): (r: State)
    ensures response.Ok? ==> SortedDesc(r.appointments) && multiset(r.appointments) == multiset(response.value)
    ensures response.Ok? ==> SameGroups(response.value, r.appointments)
    ensures response.Ok? ==> r.appointmentsError == ""
    ensures response.Failed? ==>
              r.appointments == s.appointments &&
              r.appointmentsError == ErrorText(response.message, AppointmentsLoadError)
    ensures r.list == s.list && r.selected == s.selected
    ensures r == s.(appointments := r.appointments, appointmentsError := r.appointmentsError)
  {
    match response
    case Ok(data) =>
      SortStable(data);
      s.(appointments := SortById(data), appointmentsError := "")
    case Failed(m) => s.(appointmentsError := ErrorText(m, AppointmentsLoadError))
  }

  /** "Edit" on a row: the form carries the row's fields (never its id). */
  function OpenEdit(s: State, patient: Patient): (r: State)
    ensures r.list.formOpen && r.list.editing == Some(patient)
    ensures r.list.form.name == Some(patient.data.name)
    ensures r.list.form.age == patient.data.age && r.list.form.gender == patient.data.gender
    ensures r.list.form.medicalHistory == patient.data.medicalHistory
    ensures r.list.items == s.list.items && r.selected == s.selected
    ensures r == s.(list := s.list.(editing := Some(patient), form := r.list.form, formOpen := true))
  {
    var form := PatientPayload(Some(patient.data.name), patient.data.age, patient.data.gender,
                               patient.data.medicalHistory);
    s.(list := s.list.(editing := Some(patient), form := form, formOpen := true))
  }

  /** Form submission (`handleSubmit` makes no check).  An accepted update
      replaces the selection when it is the updated patient; an accepted create
      selects the new patient and empties the appointment panel. */
  function Submit(s: State, response: Response<Patient>): (r: State)
    ensures response.Ok? ==> r.list == SaveSucceeded(s.list, response.value, EmptyForm)
    ensures response.Ok? && s.list.editing.Some? ==>
              r.selected == (if s.selected.Some? && s.selected.value.id == response.value.id
                             then Some(response.value) else s.selected)
    ensures response.Ok? && s.list.editing.Some? ==> r.appointments == s.appointments
    ensures response.Ok? && s.list.editing.None? ==>
              r.selected == Some(response.value) && r.appointments == []
    ensures response.Failed? ==> r.list.items == s.list.items && r.list.formOpen == s.list.formOpen
    ensures response.Failed? ==> r.list.error == ErrorText(response.message, SaveError)
    ensures response.Failed? ==> r.selected == s.selected
    // a failed save keeps edit mode, the form's contents and the panel
    ensures response.Failed? ==> r == s.(list := s.list.(error := ErrorText(response.message, SaveError)))
    // the doctor lookup and the panel's error are never touched
    ensures r == s.(list := r.list, selected := r.selected, appointments := r.appointments)
  {
    match response
    case Ok(saved) =>
      var list := SaveSucceeded(s.list, saved, EmptyForm);
      if s.list.editing.Some? then
        var selected := if s.selected.Some? && s.selected.value.id == saved.id then Some(saved) else s.selected;
        s.(list := list, selected := selected)
      else
        s.(list := list, selected := Some(saved), appointments := [])
    case Failed(m) => s.(list := SaveFailed(s.list, m, SaveError))
  }

  /** A confirmed delete.  When the deleted patient was selected, the selection
      moves to the first remaining patient, or to none (with an empty panel)
      when no patient remains. */
  function Delete(s: State, response: Response<()>): (r: State)
    ensures r.list == ConfirmDelete(s.list, response, DeleteError)
    ensures s.list.deleting.Some? && response.Ok? ==>
              forall j :: WithId(r.list.items, j) ==
                          (if j == s.list.deleting.value.id then [] else WithId(s.list.items, j))
    ensures (s.list.deleting.Some? && response.Ok? && s.selected.Some? &&
             s.selected.value.id == s.list.deleting.value.id) ==>
              r.selected == (if |r.list.items| > 0 then Some(r.list.items[0]) else None)
    ensures (s.list.deleting.Some? && response.Ok? && |r.list.items| == 0 && s.selected.Some? &&
             s.selected.value.id == s.list.deleting.value.id) ==> r.appointments == []
    ensures (s.list.deleting.None? || response.Failed? || s.selected.None? ||
             s.selected.value.id != s.list.deleting.value.id) ==>
              r.selected == s.selected && r.appointments == s.appointments
    ensures r == s.(list := r.list, selected := r.selected, appointments := r.appointments)
  {
    var list := ConfirmDelete(s.list, response, DeleteError);
    match s.list.deleting
    case None => s
    case Some(target) =>
      if response.Ok? && s.selected.Some? && s.selected.value.id == target.id then
        var remaining := list.items;
        s.(list := list,
           selected := if |remaining| > 0 then Some(remaining[0]) else None,
           appointments := if |remaining| == 0 then [] else s.appointments)
      else s.(list := list)
  }

  /** The selection is always one of the listed patients (or none). */
  ghost predicate SelectionListed(s: State) {
    s.selected.None? || s.selected.value in s.list.items
  }

  lemma LoadKeepsSelectionListed(s: State, response: Response<(seq<Patient>, seq<Doctor>)>)
    requires SelectionListed(s)
    ensures SelectionListed(LoadInitialData(s, response))
  {
  }

  lemma SubmitKeepsSelectionListed(s: State, response: Response<Patient>)
    requires SelectionListed(s)
    ensures SelectionListed(Submit(s, response))
  {
    if response.Ok? {
      if s.list.editing.Some? {
        UpdatedSelectionListed(s.list.items, s.selected, response.value);
      } else {
        CreatedListed(s.list.items, response.value);
      }
    }
  }

  lemma UpdatedSelectionListed(items: seq<Patient>, selected: Option<Patient>, saved: Patient)
    requires selected.None? || selected.value in items
    ensures var after := if selected.Some? && selected.value.id == saved.id then Some(saved) else selected;
            after.None? || after.value in MergeUpdated(items, saved)
  {
    var merged := MergeUpdated(items, saved);
    if selected.Some? {
      var x := selected.value;
      if x.id == saved.id {
        assert multiset(merged)[saved] == 1;
      } else {
        assert multiset(merged)[x] == multiset(items)[x];
      }
    }
  }

  lemma CreatedListed(items: seq<Patient>, saved: Patient)
    ensures saved in MergeCreated(items, saved)
  {
    var merged := MergeCreated(items, saved);
    assert multiset(merged) == multiset(items) + multiset{saved};
    assert saved in multiset(merged);
  }

  lemma DeleteKeepsSelectionListed(s: State, response: Response<()>)
    requires SelectionListed(s)
    ensures SelectionListed(Delete(s, response))
  {
    if s.list.deleting.Some? && response.Ok? && s.selected.Some? &&
       s.selected.value.id != s.list.deleting.value.id {
      var x := s.selected.value;
      assert multiset(Delete(s, response).list.items)[x] == multiset(s.list.items)[x];
    }
  }

  /** The Medical History cell: sixty characters, '...' when cut, 'N/A' when empty. */
  function MedicalHistoryCell(patient: Patient): (r: string)
    ensures patient.data.medicalHistory.None? || patient.data.medicalHistory.value == [] ==> r == "N/A"
    ensures patient.data.medicalHistory.Some? && |patient.data.medicalHistory.value| > CellWidth ==>
              r == patient.data.medicalHistory.value[..CellWidth] + "..."
    ensures patient.data.medicalHistory.Some? && 0 < |patient.data.medicalHistory.value| <= CellWidth ==>
              r == patient.data.medicalHistory.value
  {
    Cell(patient.data.medicalHistory, "...", "N/A")
  }

  /** The Reason cell of the side panel: the same rule with '...' and 'N/A'. */
  function AppointmentReasonCell(appointment: Appointment): (r: string)
    ensures appointment.data.reason.None? || appointment.data.reason.value == [] ==> r == "N/A"
    ensures appointment.data.reason.Some? && |appointment.data.reason.value| > CellWidth ==>
              r == appointment.data.reason.value[..CellWidth] + "..."
    ensures appointment.data.reason.Some? && 0 < |appointment.data.reason.value| <= CellWidth ==>
              r == appointment.data.reason.value
  {
    Cell(appointment.data.reason, "...", "N/A")
  }

  /** The Doctor cell of the side panel: the doctor's name when the lookup has
      a doctor with a non-empty name, else "Doctor #<id>". */
  function DoctorLabel(doctorsById: map<int, Doctor>, doctorId: int): (r: string)
    ensures doctorId in doctorsById && doctorsById[doctorId].data.name != [] ==>
              r == doctorsById[doctorId].data.name
    ensures !(doctorId in doctorsById && doctorsById[doctorId].data.name != []) ==>
              r == "Doctor #" + IntString(doctorId)
  {
    if doctorId in doctorsById && doctorsById[doctorId].data.name != [] then doctorsById[doctorId].data.name
    else "Doctor #" + IntString(doctorId)
  }

  /** Read against the fetched doctor list: the label names the last listed doctor
      with the appointment's doctor id, and falls back to the id when none is listed. */
  lemma DoctorLabelFromList(doctors: seq<Doctor>, doctorId: int)
    ensures WithId(doctors, doctorId) == [] ==>
              DoctorLabel(MapDoctorsById(doctors), doctorId) == "Doctor #" + IntString(doctorId)
    ensures WithId(doctors, doctorId) != [] && Last(WithId(doctors, doctorId)).data.name != [] ==>
              DoctorLabel(MapDoctorsById(doctors), doctorId) == Last(WithId(doctors, doctorId)).data.name
  {
  }
}

=== FILE: slicing.dfy ===
/**
 * JavaScript's `slice(start, end)` on strings and arrays: negative indices
 * count from the end, out-of-range indices are clamped, and an empty range
 * yields the empty sequence rather than an error.
 */
module Slicing {

  /** How `slice` turns one argument into a position in `0..len`. */
  function Position(i: int, len: nat): (p: nat)
    ensures p <= len
    ensures 0 <= i <= len ==> p == i
    ensures i > len ==> p == len
    ensures i < 0 ==> p == (if len + i < 0 then 0 else len + i)
  {
    if i < 0 then (if len + i < 0 then 0 else len + i)
    else if i > len then len
    else i
  }

  function Slice<T>(s: seq<T>, start: int, end: int): (r: seq<T>)
    ensures |r| <= |s|
    // for non-negative arguments: the elements at start, start+1, ... that exist, up to end
    ensures 0 <= start && 0 <= end ==>
              |r| == (if start >= end || start >= |s| then 0
                      else (if end < |s| then end else |s|) - start)
    ensures 0 <= start ==> forall i :: 0 <= i < |r| ==> start + i < |s| && r[i] == s[start + i]
  {
    var from, to := Position(start, |s|), Position(end, |s|);
    if from < to then s[from..to] else []
  }

  /** `s.slice(0, n)` is a prefix of `s`, the whole of `s` when it is short enough,
      and slicing it again to the same bound changes nothing. */
  lemma PrefixSlice<T>(s: seq<T>, n: nat)
    ensures Slice(s, 0, n) == (if |s| <= n then s else s[..n])
    ensures Slice(Slice(s, 0, n), 0, n) == Slice(s, 0, n)
  {
  }
}

=== FILE: types.dfy ===
/**
 * The record shapes of the three resources.  Every record is a server-assigned
 * integer identifier paired with the resource's own fields; for doctors and
 * appointments the id-less payload sent on create/update has exactly the shape
 * of those fields, for patients it is looser (the name is optional).
 */
module Types {
  import opened Wrappers

  /** A stored record: identifier plus the resource's fields. */
  datatype Record<D> = Record(id: int, data: D)

  datatype PatientData = PatientData(
    name: string,
    age: Option<int>,
    gender: Option<string>,
    medicalHistory: Option<string>)

  /** The patient form and the body of create/update requests; it has no id. */
  datatype PatientPayload = PatientPayload(
    name: Option<string>,
    age: Option<int>,
    gender: Option<string>,
    medicalHistory: Option<string>)

  /** Doctor fields; also the doctor payload, which has the same shape. */
  datatype DoctorData = DoctorData(name: string, specialty: string, bio: Option<string>)

  /** Appointment fields; also the appointment payload, which has the same shape. */
  datatype AppointmentData = AppointmentData(
    patientId: int,
    doctorId: int,
    dateTime: string,
    reason: Option<string>)

  type Patient = Record<PatientData>
  type Doctor = Record<DoctorData>
  type Appointment = Record<AppointmentData>

  /** The outcome of a service call: the decoded body, or a failure carrying
      the server's message when it sent one. */
  datatype Response<T> = Ok(value: T) | Failed(message: Option<string>)

  /** The text shown for a failed call: the server's message when it is a
      non-empty string, the operation's fixed default otherwise. */
  function ErrorText(message: Option<string>, default: string): (r: string)
    ensures message.Some? && message.value != [] ==> r == message.value
    ensures (message.None? || message.value == []) ==> r == default
  {
    match message
    case Some(m) => if m != [] then m else default
    case None => default
  }
}

=== FILE: wrappers.dfy ===
/** Optional values: the model's stand-in for TypeScript's `undefined` / `null`. */
module Wrappers {

  datatype Option<+T> = None | Some(value: T) {

    /** Returns the value in Some, or `default` when None (TypeScript's `??`). */
    function GetOr(default: T): T {
      match this
      case Some(v) => v
      case None => default
    }
  }
}
